=== FILE: README.md ===
# ComBiz core, modelled in Dafny

ComBiz (`src/combiz.py`) is a small script that writes a git commit message
with a language model. It reads the staged diff with `git diff --cached`. It
sends each configured prompt, followed by a blank line and the diff, to an
Ollama-style completion endpoint. It keeps every non-empty answer as a
candidate. It then asks the operator to pick one by number and runs
`git commit -m` with the chosen candidate.

This project models the pure logic under that I/O:

- `Whitespace`: removal of whitespace from both ends of a string, for a
  given class of whitespace characters. With the `str.isspace()` class
  (`IsSpace`) it is Python's `str.strip()`, applied to the diff and to
  every answer.
- `ChoiceInput`: Python's `int()` applied to the operator's line. `int()`
  skips a narrower class than `str.strip()`. CPython turns every non-ASCII
  `str.isspace()` character into a space, then skips only TAB..CR and
  SPACE. The information separators U+001C..U+001F are therefore not
  skipped, and a line that starts or ends with one is rejected
  (`ChoiceInput.IsIntSpace`).
- `Generation`: the per-prompt request text and `get_ollama_response`.
  It also models `generate_commit_message` as a filter over the answers of
  an abstract endpoint (`Oracle = string -> Option<string>`). `None` is a
  non-200 reply. `Some(raw)` is the raw `response` field.
- `Selection`: `select_best_message`. `Step` is one pass of its loop on one
  parsed answer. `Run` is the loop fed a sequence of answers.
- `Combiz`: `get_git_diff`, `main` and the whole session, with the
  requests sent to the endpoint.

The model keeps three behaviours of the source as they are written:

- The commit argument is the candidate between two literal double quotes,
  `'"' + message + '"'`. `git` is called without a shell, so the quotes
  become part of the commit message (`Selection.Quoted`).
- The `while True` loop has no `break` after a commit. `Step` therefore
  stays in `AwaitingChoice` after a `Commit` event, and answering `1` twice
  asks for two commits (`Selection.CommitKeepsWaiting`). Of the answers,
  only `0` ends the loop. Every `git commit` is assumed to succeed; see
  "Left out".
- A candidate can hold U+0000, because the endpoint's JSON may carry
  `\u0000`. `subprocess.run` rejects such an argument with `ValueError`
  before `git` starts, and the `except ValueError` around the loop body
  reports it as invalid input. Choosing that candidate is therefore an
  `InvalidInput` event and never a commit (`Selection.Committable`).

The script does no markdown, quote or emoji processing of the answers, and
it passes no extra options to `git commit`. A failed connection to the
endpoint is an uncaught exception. `show_error(..., _exit=1)` ends the
process with exit status 0, even on errors. Without `_exit` it only prints
its message and returns, which is why the selection loop goes on after an
invalid answer.

## Model

| member | source | states |
|---|---|---|
| `Whitespace.Trim` | src/combiz.py:65 | the result has no whitespace of the class at either end, and it is a slice of the input with only whitespace of the class before and after it; with `IsSpace` this is `str.strip()` |
| `Whitespace.TrimCharacterized` | src/combiz.py:65 | any slice with no whitespace at either end and only whitespace around it is exactly what the trimming returns, the converse of `Trim`'s contract |
| `Whitespace.TrimIdempotent` | src/combiz.py:76 | stripping an already stripped text changes nothing |
| `Whitespace.TrimmedIsFixedPoint` | src/combiz.py:76 | `strip()` leaves a text unchanged exactly when neither end is whitespace |
| `Whitespace.TrimEmptyIffAllSpace` | src/combiz.py:113-115 | the stripped text is empty, hence falsy, exactly when the input was all whitespace |
| `Whitespace.TrimIgnoresPadding` | src/combiz.py:65 | whitespace around a text does not change what the trimming returns |
| `Whitespace.TrimKeepsClass` | src/combiz.py:65 | the trimmed text keeps only characters of the input, so a property of every input character holds of every kept one |
| `ChoiceInput.ParseInt` | src/combiz.py:96 | a line is a number exactly when, once the `int()` space around it is skipped, it is an optional sign followed by digits with single underscores between digits; a line that is blank for `str.isspace()` is never a number |
| `ChoiceInput.ShowInt` | src/combiz.py:96 | the decimal spelling of an integer is a literal `int()` accepts, with nothing to skip at either end |
| `ChoiceInput.ParseShowInt` | src/combiz.py:96 | `int()` reads back the decimal spelling of every integer, negative ones included |
| `ChoiceInput.ParseIgnoresPadding` | src/combiz.py:96 | TAB..CR, SPACE and the non-ASCII `str.isspace()` characters typed around the answer do not change the number read |
| `ChoiceInput.ParseDigits` | src/combiz.py:96 | a digit string reads as its value, leading zeros and underscores included |
| `ChoiceInput.ParseSigned` | src/combiz.py:96 | after `+` a digit string reads as its value, after `-` as the negated value |
| `ChoiceInput.DigitsValueLeadingZeros` | src/combiz.py:96 | leading zeros do not change the value of a digit string |
| `ChoiceInput.ParseLeadingZeros` | src/combiz.py:96 | `00…0n` and `+00…0n` read as `n` |
| `ChoiceInput.DigitsValueSeparator` | src/combiz.py:96 | an underscore adds nothing to the value of a digit string |
| `ChoiceInput.ParseSeparator` | src/combiz.py:96 | one underscore between two digit strings is accepted and reads as the same number as without it |
| `ChoiceInput.ParseUntrimmed` | src/combiz.py:96-110 | a line with nothing to skip at its ends takes the `ValueError` path exactly when it is not an integer literal |
| `ChoiceInput.RejectedLines` | src/combiz.py:96-110 | `1a`, `1 2`, `1__0` and `+ 1` take the `ValueError` path |
| `ChoiceInput.InfoSeparatorRejected` | src/combiz.py:96-110 | a line starting with U+001F takes the `ValueError` path, although `str.strip()` would have removed that character |
| `Generation.RequestText` | src/combiz.py:81 | the request is the prompt, then exactly `"\n\n"`, then the diff, with nothing else |
| `Generation.RequestTextInjective` | src/combiz.py:81 | for one diff, two prompts give the same request only if they are equal |
| `Generation.Respond` | src/combiz.py:67-76 | a failed call gives `None`; a reply gives the raw text's strip, a slice with whitespace only around it and at neither end, empty exactly when the raw text was all whitespace |
| `Generation.Responses` | src/combiz.py:80-82 | one response per prompt, in prompt order: the `i`-th is what `get_ollama_response` gives for the request of the `i`-th prompt, the stripped answer or `None` for a failed call |
| `Generation.KeepTruthy` | src/combiz.py:83-84 | the filter never lengthens its input, and keeps only non-empty values found in it |
| `Generation.Generate` | src/combiz.py:78-85 | there are never more candidates than prompts, and every candidate is non-empty with no surrounding whitespace |
| `Generation.TruthyIndices` | src/combiz.py:83-84 | every listed position is below the bound and holds a truthy response |
| `Generation.TruthyIndicesOrdered` | src/combiz.py:80 | the positions of the kept responses are strictly ascending |
| `Generation.TruthyIndicesComplete` | src/combiz.py:83-84 | every position with a truthy response is listed |
| `Generation.KeepTruthyAtIndices` | src/combiz.py:80-84 | kept value `k` is the response at listed position `k`, so the filter output has one entry per listed position |
| `Generation.KeepTruthyAll` | src/combiz.py:83-84 | when every response is truthy the filter keeps all of them, each at its own position |
| `Generation.KeepTruthyNone` | src/combiz.py:83-84 | when no response is truthy the filter keeps nothing |
| `Generation.KeepTruthyAppend` | src/combiz.py:80-84 | filtering a concatenation is concatenating the filtered parts |
| `Generation.GenerateInPromptOrder` | src/combiz.py:80-84 | candidate `k` is the response to the `k`-th prompt whose call succeeded with non-empty text; these prompts are listed in ascending order and none is missed |
| `Generation.GenerateAllSucceed` | src/combiz.py:73-84 | when every call succeeds with non-empty text there is exactly one candidate per prompt, at the prompt's position |
| `Generation.GenerateAllFail` | src/combiz.py:73-84 | when every call fails or answers blank there is no candidate |
| `Generation.GenerateSkipsFailure` | src/combiz.py:73-84 | a prompt whose call fails or answers blank adds no placeholder and does not shift the other candidates |
| `Generation.RequestsFor` | src/combiz.py:80-82 | one request per prompt, in prompt order, the `i`-th being the request text for the `i`-th prompt |
| `Generation.KeepTruthyExtend` | src/combiz.py:80-84 | one more response appends it to the candidates exactly when it is truthy |
| `Generation.GenerateCommitMessage` | src/combiz.py:78-85 | the loop returns the filtered candidates and sends exactly the requests of `RequestsFor`: one per prompt, in prompt order, each the prompt followed by a blank line and the diff |
| `Selection.Quoted` | src/combiz.py:102 | the commit argument is the message between two literal double quotes, and stripping those quotes gives the message back |
| `Selection.Start` | src/combiz.py:88-89 | the script stops with the no-responses error exactly when the candidate list is empty, and otherwise waits over that list |
| `Selection.Step` | src/combiz.py:94-110 | `0` and only `0` cancels and ends the loop; a number from 1 to the list length whose candidate holds no U+0000, and only such a number, commits that quoted candidate; a non-number or a candidate with U+0000 gives the invalid-input complaint; any other number gives the invalid-choice complaint; in every case except cancellation the loop keeps waiting |
| `Selection.Run` | src/combiz.py:94-110 | a run emits at most one event per answer, emits nothing once exited, and ends either still waiting or cancelled |
| `Selection.RunCancelsLast` | src/combiz.py:97-98 | `Cancel` ends the loop, so it is never followed by another event |
| `Selection.RunWithoutCancel` | src/combiz.py:94-110 | without a `0`, every answer gets its own event in order and the loop is still waiting at the end, commits included |
| `Selection.RunUntilCancel` | src/combiz.py:97-98 | the first `0` ends the run with `Cancel`, and no answer after it is read |
| `Selection.RunEventsAreSteps` | src/combiz.py:94-110 | every event of a run is what one pass of the loop makes of the answer at the same position |
| `Selection.RunCommitsSelected` | src/combiz.py:99-102 | every commit of a run passes the quoted candidate that the answer at that step selected, and that candidate holds no U+0000 |
| `Selection.EmptyCandidatesNeverCommit` | src/combiz.py:88-89 | with no candidates, no answer is read and nothing is committed |
| `Selection.CommitKeepsWaiting` | src/combiz.py:94-104 | the loop is not left after a commit: answering `1` twice asks for two commits of the same candidate, and the loop then waits again, every `git commit` being taken to succeed |
| `Selection.NulCandidateNeverCommits` | src/combiz.py:99-110 | choosing a candidate that holds U+0000 is reported as invalid input every time, and never commits |
| `Combiz.GitDiff` | src/combiz.py:63-65 | the diff is the strip of the git output, a slice with whitespace only around it and at neither end, and it is empty exactly when the git output was all whitespace |
| `Combiz.ParseLines` | src/combiz.py:96 | one parsed answer per line typed, in order, each what `int()` makes of that line |
| `Combiz.Session` | src/combiz.py:112-118 | a blank diff sends no request and ends in the no-staged-changes exit with no event; otherwise one request per prompt is sent, in order, each the prompt, a blank line and the stripped diff; the loop gives at most one event per line |
| `Combiz.SessionCommitsGenerated` | src/combiz.py:94-118 | every commit of a session passes, between quotes, the generated candidate that the line at the same position selected, and that line parsed as a number from 1 to the number of candidates |
| `Combiz.RunFromStartCommitsSelected` | src/combiz.py:88-104 | whether the candidate list is empty or not, every commit of the loop started over it passes the quoted candidate that the answer at the same position selected |
| `Combiz.Launch` | src/combiz.py:112-118 | the step-by-step `main` sends no request and stops on a blank diff, otherwise starts selection over the generated candidates, and its requests and phase fed to the selection loop give exactly `Session` |
| `Combiz.AllFailedExitsNoResponses` | src/combiz.py:78-89 | with a non-blank diff and no non-empty answer, every request is still sent and the script stops with the no-responses exit before reading a line |
| `Combiz.EndToEndExample` | src/combiz.py:112-118 | one prompt, an endpoint answering `"  feat: add foo \n"` and the answer `1` send one request with the stripped diff and commit `"feat: add foo"` in quotes, and the loop then waits again |

## Left out

- Installing `requests` with `pip` at import time (src/combiz.py:33-45): packaging and process side effects.
- Loading `config.json` and `prompts.json` (src/combiz.py:47-61): file I/O and JSON parsing. The prompt list is a parameter, and the model name and URL are part of the abstract endpoint.
- The HTTP POST and the JSON decoding in `get_ollama_response` (src/combiz.py:68-72): a network call. It is replaced by the `Oracle` function. A connection error or a reply without a `response` field raises an uncaught exception; the model does not cover either.
- Running `git diff --cached` and `git commit` (src/combiz.py:64, src/combiz.py:102): external commands. The diff is the captured output given as a parameter, as already-decoded text. `text=True` decodes it strictly in the locale encoding and turns CRLF into LF. A staged file whose bytes do not decode raises an uncaught `UnicodeDecodeError` before the empty-diff check at src/combiz.py:114; the model cannot express that case. A commit is an emitted `Commit` event. `check=True` turns a failing commit into an uncaught exception, so the `Commit failed` branch (src/combiz.py:105-106) cannot be reached; it is not modelled.
- Reading lines with `input()`, and the uncaught end-of-input and interrupt exceptions: the operator's lines are a parameter, as already-decoded text. A line that does not decode makes `input()` raise `UnicodeDecodeError`, a `ValueError`, which src/combiz.py:109-110 reports as invalid input; the model cannot express that line.
- `Selection.CommitKeepsWaiting`: a `Commit` event is taken to be a `git commit` that exits with status 0. After one successful commit nothing is staged, so choosing a candidate again normally makes `git commit` exit with status 1. `check=True` (src/combiz.py:102) then raises `CalledProcessError`, which the `except ValueError` does not catch, and the script ends. The model, and `Selection.Step` in general, keeps waiting after every commit.
- Colours and the text of the messages (src/combiz.py:10-31, src/combiz.py:101): output only. The numbered list at src/combiz.py:91-92 is output too, but it can fail; see the `Selection.Start` line below.
- Process exit codes: `show_error(..., _exit=1)` ends the process with status 0, even on errors (src/combiz.py:24-25, called so at src/combiz.py:89, 98 and 115). Exits are the abstract `Exit` values.
- `ChoiceInput.ParseInt`: accepts ASCII digits only. Python's `int()` also accepts other Unicode decimal digits, such as Arabic-Indic digits. Here those lines are `NotANumber`.
- `ChoiceInput.ParseInt`: has no limit on the number of digits. CPython 3.11 and later, and the security releases 3.10.7 and 3.9.14, reject a base-10 string of more than 4300 digits with `ValueError`, so such a line is reported as invalid input there and read as a number here. The limit depends on the interpreter version and on `sys.set_int_max_str_digits`, neither of which the script fixes.
- `Selection.Start`: assumes the terminal accepts every character. The numbered list (src/combiz.py:91-92) prints every candidate before the loop and outside its `try`. On a terminal whose encoding cannot represent a character of a candidate, that print raises an uncaught `UnicodeEncodeError`, and the script ends before any answer is read. The model waits over the list instead. Once that print has succeeded, the same text printed again at src/combiz.py:101 cannot fail. Lone surrogates would crash there in the same way, and they are not Dafny characters.
- `Generation.Oracle`: the endpoint is a function of the request text, so two equal requests always get equal answers. The real endpoint can answer equal requests differently, for example by sampling or by a transient non-200 reply. With two equal prompts the script can then keep exactly one candidate, which the model cannot represent. Lemmas that compare runs, such as `Generation.GenerateSkipsFailure`, hold under this assumption.

=== FILE: choice.dfy ===
/** The operator's answer at the selection prompt: Python's `int()` applied
    to the line read by `input()` (src/combiz.py:96). A line `int()` rejects
    raises `ValueError`, which the selection loop catches.
 */
module ChoiceInput {
  import opened Whitespace

  /** The result of `int(line)`: a number, or the `ValueError` case. */
  datatype Choice = Number(n: int) | NotANumber

  /** The characters `int()` skips around a number. CPython first replaces
      every non-ASCII `str.isspace()` character by a space and leaves ASCII
      characters alone, then skips only TAB..CR and SPACE. So the four
      information separators U+001C..U+001F, for which `str.isspace()`
      holds, are not skipped: they make `int()` fail. */
  predicate IsIntSpace(c: char) {
    IsSpace(c) && !(0x1C <= c as int <= 0x1F)
  }

  predicate IsDigit(c: char) {
    '0' <= c <= '9'
  }

  predicate IsSign(c: char) {
    c == '+' || c == '-'
  }

  /** Characters a base-10 literal body may contain. */
  predicate DigitsOrUnderscores(s: string) {
    forall k :: 0 <= k < |s| ==> IsDigit(s[k]) || s[k] == '_'
  }

  /** The unsigned base-10 bodies `int()` accepts: digits with single
      underscores allowed between two digits. Leading zeros are allowed. */
  predicate IsDigitString(s: string) {
    |s| > 0 && IsDigit(s[0]) && IsDigit(s[|s| - 1]) && DigitsOrUnderscores(s)
    && (forall k :: 0 <= k < |s| - 1 && s[k] == '_' ==> s[k + 1] != '_')
  }

  /** What `int()` accepts once the surrounding space is gone: an optional
      sign, then a digit string. */
  predicate IsIntLiteral(t: string) {
    IsDigitString(t) || (|t| > 0 && IsSign(t[0]) && IsDigitString(t[1..]))
  }

  /** The value of a digit string, underscores being separators only. */
  function DigitsValue(s: string): nat
    requires DigitsOrUnderscores(s)
    decreases |s|
  {
    if |s| == 0 then 0
    else
      var init := s[..|s| - 1];
      assert DigitsOrUnderscores(init) by {
        forall k | 0 <= k < |init| ensures IsDigit(init[k]) || init[k] == '_' {
          assert init[k] == s[k];
        }
      }
      if s[|s| - 1] == '_' then DigitsValue(init)
      else DigitsValue(init) * 10 + (s[|s| - 1] as int - '0' as int)
  }

  /** `int(line)` in base 10 for ASCII digits: the `int()` space around the
      text is skipped, then one optional sign and a digit string must make up
      the rest. A line is a number exactly when what is left is such a
      literal; a line that is blank for `str.isspace()` never is. */
  function ParseInt(line: string): (c: Choice)
    ensures c.Number? <==> IsIntLiteral(Trim(IsIntSpace, line))
    ensures AllSpace(IsSpace, line) ==> c == NotANumber
  {
    var t := Trim(IsIntSpace, line);
    assert AllSpace(IsSpace, line) ==> AllSpace(IsSpace, t) by {
      if AllSpace(IsSpace, line) {
        TrimKeepsClass(IsIntSpace, IsSpace, line);
      }
    }
    if |t| > 0 && IsSign(t[0]) then
      var body := t[1..];
      if IsDigitString(body) then
        var v: int := DigitsValue(body);
        Number(if t[0] == '-' then -v else v)
      else NotANumber
    else if IsDigitString(t) then Number(DigitsValue(t))
    else NotANumber
  }

  function DigitChar(d: nat): (c: char)
    requires d < 10
    ensures IsDigit(c) && c as int - '0' as int == d
  {
    ('0' as int + d) as char
  }

  /** The decimal spelling of `n` without sign, separators or leading zeros;
      reading it back gives `n`. */
  function ShowNat(n: nat): (s: string)
    ensures IsDigitString(s)
    ensures forall k :: 0 <= k < |s| ==> IsDigit(s[k])
    ensures DigitsValue(s) == n
    decreases n
  {
    if n < 10 then [DigitChar(n)]
    else
      var s := ShowNat(n / 10) + [DigitChar(n % 10)];
      assert s[..|s| - 1] == ShowNat(n / 10);
      s
  }

  /** The spelling `str(n)` an operator would type for `n`: an integer
      literal with nothing for `int()` to skip at either end. */
  function ShowInt(n: int): (s: string)
    ensures IsIntLiteral(s) && Trimmed(IsIntSpace, s)
  {
    if n < 0 then
      var s := "-" + ShowNat(-n);
      assert s[1..] == ShowNat(-n);
      s
    else ShowNat(n)
  }

  /** Reading back what `ShowInt` spells gives the same number. */
  lemma ParseShowInt(n: int)
    ensures ParseInt(ShowInt(n)) == Number(n)
  {
    var s := ShowInt(n);
    TrimmedIsFixedPoint(IsIntSpace, s);
    if n < 0 {
      assert s[1..] == ShowNat(-n);
    }
  }

  /** `int()` space typed around the answer does not change it. */
  lemma ParseIgnoresPadding(line: string, p: nat, q: nat)
    requires p <= q <= |line|
    requires SpaceBetween(IsIntSpace, line, 0, p) && SpaceBetween(IsIntSpace, line, q, |line|)
    ensures ParseInt(line[p..q]) == ParseInt(line)
  {
    TrimIgnoresPadding(IsIntSpace, line, p, q);
  }

  /** A digit string reads as its value. */
  lemma ParseDigits(s: string)
    requires IsDigitString(s)
    ensures ParseInt(s) == Number(DigitsValue(s))
  {
    TrimmedIsFixedPoint(IsIntSpace, s);
  }

  /** After a `+` sign a digit string reads as its value, after a `-` sign
      as the negated value. */
  lemma ParseSigned(sign: char, s: string)
    requires IsSign(sign) && IsDigitString(s)
    ensures ParseInt([sign] + s) == Number(if sign == '-' then -(DigitsValue(s) as int) else DigitsValue(s))
  {
    var t := [sign] + s;
    assert t[0] == sign && t[1..] == s && t[|t| - 1] == s[|s| - 1];
    assert Trimmed(IsIntSpace, t);
    TrimmedIsFixedPoint(IsIntSpace, t);
  }

  /** `z` zero digits. */
  function Zeros(z: nat): (s: string)
    ensures |s| == z && forall k :: 0 <= k < z ==> s[k] == '0'
  {
    seq(z, _ => '0')
  }

  /** Leading zeros do not change the value of a digit string. */
  lemma {:induction false} DigitsValueLeadingZeros(z: nat, s: string)
    requires DigitsOrUnderscores(s)
    ensures DigitsOrUnderscores(Zeros(z) + s)
    ensures DigitsValue(Zeros(z) + s) == DigitsValue(s)
    decreases |s| + z
  {
    var w := Zeros(z) + s;
    assert forall k :: 0 <= k < |w| ==> w[k] == if k < z then '0' else s[k - z];
    if |s| > 0 {
      var init := s[..|s| - 1];
      assert w[..|w| - 1] == Zeros(z) + init;
      DigitsValueLeadingZeros(z, init);
    } else if z > 0 {
      assert w[..|w| - 1] == Zeros(z - 1) + s;
      DigitsValueLeadingZeros(z - 1, s);
    }
  }

  /** Zeros put in front of a digit string leave a digit string of the same value. */
  lemma ZerosThenDigits(z: nat, s: string)
    requires IsDigitString(s)
    ensures IsDigitString(Zeros(z) + s) && DigitsValue(Zeros(z) + s) == DigitsValue(s)
  {
    var w := Zeros(z) + s;
    DigitsValueLeadingZeros(z, s);
    assert w[|w| - 1] == s[|s| - 1];
    forall k | 0 <= k < |w| - 1 && w[k] == '_' ensures w[k + 1] != '_' {
      assert w[k] == s[k - z] && w[k + 1] == s[k + 1 - z];
    }
  }

  /** `int()` accepts leading zeros: `00…0n`, with or without a `+` sign,
      reads as `n`. */
  lemma ParseLeadingZeros(n: nat, z: nat)
    ensures ParseInt(Zeros(z) + ShowNat(n)) == Number(n)
    ensures ParseInt("+" + Zeros(z) + ShowNat(n)) == Number(n)
  {
    var digits := ShowNat(n);
    var s := Zeros(z) + digits;
    ZerosThenDigits(z, digits);
    ParseDigits(s);
    ParseSigned('+', s);
    assert "+" + Zeros(z) + digits == ['+'] + s;
  }

  /** An underscore is a separator only: it adds nothing to the value. */
  lemma {:induction false} DigitsValueSeparator(a: string, b: string)
    requires DigitsOrUnderscores(a) && DigitsOrUnderscores(b)
    ensures DigitsOrUnderscores(a + "_" + b) && DigitsOrUnderscores(a + b)
    ensures DigitsValue(a + "_" + b) == DigitsValue(a + b)
    decreases |b|
  {
    var w, v := a + "_" + b, a + b;
    assert forall k :: 0 <= k < |w| ==> w[k] == if k < |a| then a[k] else if k == |a| then '_' else b[k - |a| - 1];
    assert forall k :: 0 <= k < |v| ==> v[k] == if k < |a| then a[k] else b[k - |a|];
    if |b| == 0 {
      assert w[..|w| - 1] == a == v;
    } else {
      var init := b[..|b| - 1];
      assert w[..|w| - 1] == a + "_" + init;
      assert v[..|v| - 1] == a + init;
      DigitsValueSeparator(a, init);
    }
  }

  /** Two digit strings side by side make a digit string. */
  lemma JoinDigitStrings(a: string, b: string)
    requires IsDigitString(a) && IsDigitString(b)
    ensures IsDigitString(a + b)
  {
    var v := a + b;
    assert forall k :: 0 <= k < |v| ==> v[k] == if k < |a| then a[k] else b[k - |a|];
  }

  /** Two digit strings with one underscore between them make a digit string. */
  lemma SeparateDigitStrings(a: string, b: string)
    requires IsDigitString(a) && IsDigitString(b)
    ensures IsDigitString(a + "_" + b)
  {
    var w := a + "_" + b;
    assert forall k :: 0 <= k < |w| ==> w[k] == if k < |a| then a[k] else if k == |a| then '_' else b[k - |a| - 1];
  }

  /** `int()` accepts one underscore between two digit strings, and reads
      the same number as without it. */
  lemma ParseSeparator(a: string, b: string)
    requires IsDigitString(a) && IsDigitString(b)
    ensures ParseInt(a + "_" + b) == ParseInt(a + b) == Number(DigitsValue(a + b))
  {
    DigitsValueSeparator(a, b);
    JoinDigitStrings(a, b);
    SeparateDigitStrings(a, b);
    ParseDigits(a + "_" + b);
    ParseDigits(a + b);
  }

  /** A line with nothing for `int()` to skip at its ends is read as it
      stands, so it is rejected exactly when it is not a literal. */
  lemma ParseUntrimmed(line: string)
    requires Trimmed(IsIntSpace, line)
    ensures ParseInt(line) == NotANumber <==> !IsIntLiteral(line)
  {
    TrimmedIsFixedPoint(IsIntSpace, line);
  }

  /** Lines `int()` rejects, so the loop reports invalid input: a stray
      letter, two numbers, a doubled separator and a space after the sign. */
  lemma RejectedLines()
    ensures ParseInt("1a") == NotANumber
    ensures ParseInt("1 2") == NotANumber
    ensures ParseInt("1__0") == NotANumber
    ensures ParseInt("+ 1") == NotANumber
  {
    assert "1a"[1] == 'a';
    ParseUntrimmed("1a");
    assert "1 2"[1] == ' ';
    ParseUntrimmed("1 2");
    assert "1__0"[1] == '_' == "1__0"[2];
    ParseUntrimmed("1__0");
    assert "+ 1"[1..] == " 1";
    ParseUntrimmed("+ 1");
  }

  /** An information separator before the number is not skipped: `int()`
      rejects the line although `str.strip()` would have removed it. */
  lemma InfoSeparatorRejected()
    ensures ParseInt("\U{1F}1") == NotANumber
    ensures Trim(IsSpace, "\U{1F}1") == "1"
  {
    var line := "\U{1F}1";
    ParseUntrimmed(line);
    TrimCharacterized(IsSpace, line, 1, 2);
    assert line[1..2] == "1";
  }
}

=== FILE: combiz.dfy ===
/** `get_git_diff` and `main` (src/combiz.py:63-65, 112-118): the staged
    diff is stripped, an empty one stops the script before any request, and
    otherwise the candidates go to the selection loop. The output of
    `git diff --cached`, the prompt list and the endpoint are parameters.
 */
module Combiz {
  import opened Options
  import opened Whitespace
  import opened ChoiceInput
  import opened Generation
  import opened Selection

  /** `get_git_diff`: the captured output of `git diff --cached`, stripped:
      a slice of the output with `str.isspace()` characters only around it
      and at neither of its ends, which `TrimCharacterized` shows is exactly
      `output.strip()`. */
  function GitDiff(gitOutput: string): (diff: string)
    ensures exists i, j :: TrimsTo(IsSpace, gitOutput, i, j) && diff == gitOutput[i..j]
    ensures Trimmed(IsSpace, diff)
    ensures diff == [] <==> AllSpace(IsSpace, gitOutput)
  {
    TrimEmptyIffAllSpace(IsSpace, gitOutput);
    Trim(IsSpace, gitOutput)
  }

  /** `int(input(...))` for each line the operator types. */
  function ParseLines(lines: seq<string>): (choices: seq<Choice>)
    ensures |choices| == |lines|
    ensures forall k :: 0 <= k < |lines| ==> choices[k] == ParseInt(lines[k])
  {
    seq(|lines|, k requires 0 <= k < |lines| => ParseInt(lines[k]))
  }

  /** What one run of the script does: the requests it sends to the
      endpoint, in order, and the trace of the selection loop. */
  datatype Outcome = Outcome(requests: seq<string>, trace: Trace)

  /** The whole script as a function of its inputs. A blank diff sends no
      request and stops with `NoStagedChanges`. Otherwise one request goes
      out per prompt, in order, each the prompt, a blank line and the
      stripped diff, and the loop gives at most one event per line. */
  function Session(gitOutput: string, prompts: seq<string>, oracle: Oracle, lines: seq<string>): (o: Outcome)
    ensures AllSpace(IsSpace, gitOutput) ==> o.requests == [] && o.trace == Trace([], Exited(NoStagedChanges))
    ensures !AllSpace(IsSpace, gitOutput) ==>
      && |o.requests| == |prompts|
      && forall i :: 0 <= i < |prompts| ==> o.requests[i] == RequestText(prompts[i], GitDiff(gitOutput))
    ensures |o.trace.events| <= |lines|
  {
    var diff := GitDiff(gitOutput);
    if diff == [] then Outcome([], Trace([], Exited(NoStagedChanges)))
    else
      Outcome(RequestsFor(prompts, diff), Run(Start(Generate(prompts, diff, oracle)), ParseLines(lines)))
  }

  /** Every commit of the trace `tr` passes a candidate of `results`
      between quotes: the one the answer at the same position selected. */
  predicate CommitsSelected(tr: Trace, results: seq<string>, choices: seq<Choice>) {
    && |tr.events| <= |choices|
    && forall k :: 0 <= k < |tr.events| && tr.events[k].Commit? ==>
      && choices[k].Number? && 1 <= choices[k].n <= |results|
      && tr.events[k].argument == Quoted(results[choices[k].n - 1])
  }

  /** Every commit of a session passes a generated candidate between
      quotes: the one the line at the same position selected. */
  lemma SessionCommitsGenerated(gitOutput: string, prompts: seq<string>, oracle: Oracle, lines: seq<string>)
    ensures CommitsSelected(Session(gitOutput, prompts, oracle, lines).trace,
                            Generate(prompts, GitDiff(gitOutput), oracle), ParseLines(lines))
  {
    var diff := GitDiff(gitOutput);
    var results, choices := Generate(prompts, diff, oracle), ParseLines(lines);
    if diff != [] {
      RunFromStartCommitsSelected(results, choices);
    }
  }

  /** The selection loop started over any candidate list: every commit
      passes the quoted candidate its answer selected. */
  lemma RunFromStartCommitsSelected(results: seq<string>, choices: seq<Choice>)
    ensures CommitsSelected(Run(Start(results), choices), results, choices)
  {
    if results != [] {
      RunCommitsSelected(results, choices);
    }
  }

  /** `main` up to the selection loop, step by step: the requests sent to
      the endpoint and the phase reached. A blank diff sends nothing and
      stops with `NoStagedChanges`; otherwise the loop starts over the
      generated candidates. Whatever the operator then types, `Session`
      is what this phase and the selection loop make of it. */
  method Launch(gitOutput: string, prompts: seq<string>, oracle: Oracle)
    returns (requests: seq<string>, phase: Phase)
    ensures AllSpace(IsSpace, gitOutput) ==> requests == [] && phase == Exited(NoStagedChanges)
    ensures !AllSpace(IsSpace, gitOutput) ==> phase == Start(Generate(prompts, GitDiff(gitOutput), oracle))
    ensures forall lines :: Session(gitOutput, prompts, oracle, lines) == Outcome(requests, Run(phase, ParseLines(lines)))
  {
    var diff := GitDiff(gitOutput);
    if diff == [] {
      return [], Exited(NoStagedChanges);
    }
    var results;
    results, requests := GenerateCommitMessage(prompts, diff, oracle);
    phase := Start(results);
  }

  /** When no prompt gets a non-empty answer, every request has still been
      sent, and the script stops with `NoResponses` before reading a line. */
  lemma AllFailedExitsNoResponses(gitOutput: string, prompts: seq<string>, oracle: Oracle, lines: seq<string>)
    requires !AllSpace(IsSpace, gitOutput)
    requires forall i :: 0 <= i < |prompts| ==> !Truthy(ResponseFor(oracle, GitDiff(gitOutput), prompts[i]))
    ensures var o := Session(gitOutput, prompts, oracle, lines);
      |o.requests| == |prompts| && o.trace == Trace([], Exited(NoResponses))
  {
    var diff := GitDiff(gitOutput);
    GenerateAllFail(prompts, diff, oracle);
  }

  /** An endpoint that answers every request with padded text. */
  function ExampleOracle(request: string): Option<string> {
    Some("  feat: add foo \n")
  }

  /** One prompt, an endpoint that answers with padded text, and the
      operator typing `1`: one request carries the prompt and the stripped
      diff, the padded answer becomes the only candidate and is committed
      between quotes; the loop then waits again. */
  lemma EndToEndExample()
    ensures Session("diff --git a/x b/x\n+foo\n", ["Write a commit message:"], ExampleOracle, ["1"])
      == Outcome([RequestText("Write a commit message:", "diff --git a/x b/x\n+foo")],
                 Trace([Commit(Quoted("feat: add foo"))], AwaitingChoice(["feat: add foo"])))
  {
    var o := Session("diff --git a/x b/x\n+foo\n", ["Write a commit message:"], ExampleOracle, ["1"]);
    ExampleRequests();
    ExampleTrace();
    assert o == Outcome(o.requests, o.trace);
  }

  lemma ExampleRequests()
    ensures Session("diff --git a/x b/x\n+foo\n", ["Write a commit message:"], ExampleOracle, ["1"]).requests
      == [RequestText("Write a commit message:", "diff --git a/x b/x\n+foo")]
  {
    var diff := ExampleDiff();
    var o := Session("diff --git a/x b/x\n+foo\n", ["Write a commit message:"], ExampleOracle, ["1"]);
    assert o.requests[0] == RequestText("Write a commit message:", diff);
  }

  lemma ExampleTrace()
    ensures Session("diff --git a/x b/x\n+foo\n", ["Write a commit message:"], ExampleOracle, ["1"]).trace
      == Trace([Commit(Quoted("feat: add foo"))], AwaitingChoice(["feat: add foo"]))
  {
    var out, prompts, lines := "diff --git a/x b/x\n+foo\n", ["Write a commit message:"], ["1"];
    var diff := ExampleDiff();
    assert diff != [];
    var results := ExampleCandidates(diff);
    ExampleChoice();
    ExampleRun();
    assert Session(out, prompts, ExampleOracle, lines).trace == Run(Start(results), ParseLines(lines));
  }

  lemma ExampleRun()
    ensures Run(Start(["feat: add foo"]), [Number(1)])
      == Trace([Commit(Quoted("feat: add foo"))], AwaitingChoice(["feat: add foo"]))
  {
    var results := ["feat: add foo"];
    assert Committable(results[0]);
    RunWithoutCancel(results, [Number(1)]);
  }

  lemma ExampleChoice()
    ensures ParseLines(["1"]) == [Number(1)]
  {
    ParseDigits("1");
  }

  lemma ExampleDiff() returns (diff: string)
    ensures diff == GitDiff("diff --git a/x b/x\n+foo\n") == "diff --git a/x b/x\n+foo"
  {
    var out := "diff --git a/x b/x\n+foo\n";
    assert out[0..|out| - 1] == "diff --git a/x b/x\n+foo";
    TrimCharacterized(IsSpace, out, 0, |out| - 1);
    diff := GitDiff(out);
  }

  lemma ExampleCandidates(diff: string) returns (results: seq<string>)
    ensures results == Generate(["Write a commit message:"], diff, ExampleOracle) == ["feat: add foo"]
  {
    var raw := "  feat: add foo \n";
    assert raw[2..15] == "feat: add foo";
    TrimCharacterized(IsSpace, raw, 2, 15);
    var prompts := ["Write a commit message:"];
    assert ResponseFor(ExampleOracle, diff, prompts[0]) == Some("feat: add foo");
    GenerateAllSucceed(prompts, diff, ExampleOracle);
    results := Generate(prompts, diff, ExampleOracle);
  }
}

=== FILE: generation.dfy ===
/** Optional values: `None` stands for Python's `None`. */
module Options {
  datatype Option<T> = None | Some(value: T)
}

/** Candidate generation: `get_ollama_response` and `generate_commit_message`
    (src/combiz.py:67-85). The HTTP endpoint is an abstract oracle.
 */
module Generation {
  import opened Options
  import opened Whitespace

  /** The completion endpoint as the script sees it: for a request text,
      `None` when the reply status is not 200, otherwise the raw `response`
      field of the reply. */
  type Oracle = string -> Option<string>

  /** The text sent for one prompt: the prompt, a blank line, the diff. */
  function RequestText(prompt: string, diff: string): (t: string)
    ensures |t| == |prompt| + 2 + |diff|
    ensures t[..|prompt|] == prompt && t[|prompt|..|prompt| + 2] == "\n\n"
    ensures t[|prompt| + 2..] == diff
  {
    prompt + "\n\n" + diff
  }

  /** For a fixed diff, distinct prompts give distinct requests. */
  lemma RequestTextInjective(p1: string, p2: string, diff: string)
    requires RequestText(p1, diff) == RequestText(p2, diff)
    ensures p1 == p2
  {
    var t := RequestText(p1, diff);
    assert |p1| == |p2|;
    assert p1 == t[..|p1|] == p2;
  }

  /** The requests sent for a list of prompts: one per prompt, in prompt
      order, each the prompt, a blank line and the diff. */
  function RequestsFor(prompts: seq<string>, diff: string): (rs: seq<string>)
    ensures |rs| == |prompts|
    ensures forall i :: 0 <= i < |prompts| ==> rs[i] == RequestText(prompts[i], diff)
    decreases |prompts|
  {
    if |prompts| == 0 then []
    else
      var init := prompts[..|prompts| - 1];
      var front := RequestsFor(init, diff);
      assert forall i :: 0 <= i < |init| ==> init[i] == prompts[i];
      front + [RequestText(prompts[|prompts| - 1], diff)]
  }

  /** `get_ollama_response`: `None` for a failed call, otherwise the reply
      text with surrounding whitespace removed: a slice of the raw text with
      `str.isspace()` characters only around it and at neither of its ends,
      which `TrimCharacterized` shows is exactly `raw.strip()`. */
  function Respond(oracle: Oracle, request: string): (r: Option<string>)
    ensures r.Some? <==> oracle(request).Some?
    ensures r.Some? ==> var raw := oracle(request).value;
      exists i, j :: TrimsTo(IsSpace, raw, i, j) && r.value == raw[i..j]
    ensures r.Some? ==> Trimmed(IsSpace, r.value) && |r.value| <= |oracle(request).value|
    ensures r.Some? ==> (r.value == [] <==> AllSpace(IsSpace, oracle(request).value))
  {
    match oracle(request)
    case None => None
    case Some(raw) =>
      TrimEmptyIffAllSpace(IsSpace, raw);
      Some(Trim(IsSpace, raw))
  }

  /** Python truthiness of a response: neither `None` nor the empty string. */
  predicate Truthy(r: Option<string>) {
    r.Some? && r.value != []
  }

  /** The response the script gets for one prompt. */
  function ResponseFor(oracle: Oracle, diff: string, prompt: string): Option<string> {
    Respond(oracle, RequestText(prompt, diff))
  }

  /** The responses the script gets, one per prompt, in prompt order. */
  function Responses(prompts: seq<string>, diff: string, oracle: Oracle): (rs: seq<Option<string>>)
    ensures |rs| == |prompts|
    ensures forall i :: 0 <= i < |prompts| ==> rs[i] == ResponseFor(oracle, diff, prompts[i])
  {
    seq(|prompts|, i requires 0 <= i < |prompts| => ResponseFor(oracle, diff, prompts[i]))
  }

  /** The `if response: results.append(response)` filter over a sequence of
      responses: never longer than its input, and every element kept is a
      non-empty value found in the input. */
  function KeepTruthy(rs: seq<Option<string>>): (r: seq<string>)
    ensures |r| <= |rs|
    ensures forall k :: 0 <= k < |r| ==> r[k] != [] && Some(r[k]) in rs
    decreases |rs|
  {
    if |rs| == 0 then []
    else
      var front := KeepTruthy(rs[..|rs| - 1]);
      var last := rs[|rs| - 1];
      assert forall x :: x in rs[..|rs| - 1] ==> x in rs;
      if Truthy(last) then front + [last.value] else front
  }

  /** `generate_commit_message`: the truthy responses in prompt order. Never
      longer than the prompt list, and every candidate is non-empty with no
      surrounding whitespace. */
  function Generate(prompts: seq<string>, diff: string, oracle: Oracle): (r: seq<string>)
    ensures |r| <= |prompts|
    ensures forall k :: 0 <= k < |r| ==> r[k] != [] && Trimmed(IsSpace, r[k])
  {
    var rs := Responses(prompts, diff, oracle);
    var r := KeepTruthy(rs);
    assert forall k :: 0 <= k < |r| ==> Trimmed(IsSpace, r[k]) by {
      forall k | 0 <= k < |r| ensures Trimmed(IsSpace, r[k]) {
        var i :| 0 <= i < |rs| && rs[i] == Some(r[k]);
        assert Respond(oracle, RequestText(prompts[i], diff)) == Some(r[k]);
      }
    }
    r
  }

  predicate Ascending(idx: seq<nat>) {
    forall k, l :: 0 <= k < l < |idx| ==> idx[k] < idx[l]
  }

  /** The positions below `n` of the truthy responses, in ascending order.
      Each listed position is truthy; `TruthyIndicesOrdered` and
      `TruthyIndicesComplete` show the list is ascending and misses none. */
  function TruthyIndices(rs: seq<Option<string>>, n: nat): (idx: seq<nat>)
    requires n <= |rs|
    ensures forall k :: 0 <= k < |idx| ==> idx[k] < n && Truthy(rs[idx[k]])
    decreases n
  {
    if n == 0 then []
    else
      var front := TruthyIndices(rs, n - 1);
      if Truthy(rs[n - 1]) then front + [n - 1] else front
  }

  /** The listed positions are strictly ascending. */
  lemma {:induction false} TruthyIndicesOrdered(rs: seq<Option<string>>, n: nat)
    requires n <= |rs|
    ensures Ascending(TruthyIndices(rs, n))
    decreases n
  {
    if n > 0 {
      TruthyIndicesOrdered(rs, n - 1);
      var front := TruthyIndices(rs, n - 1);
      var idx := TruthyIndices(rs, n);
      if Truthy(rs[n - 1]) {
        assert idx == front + [n - 1];
        forall k, l | 0 <= k < l < |idx| ensures idx[k] < idx[l] {
          if l < |front| {
            assert idx[k] == front[k] && idx[l] == front[l];
          } else {
            assert idx[l] == n - 1 && idx[k] == front[k] < n - 1;
          }
        }
      }
    }
  }

  /** Every truthy position below `n` is listed. */
  lemma {:induction false} TruthyIndicesComplete(rs: seq<Option<string>>, n: nat)
    requires n <= |rs|
    ensures forall i :: 0 <= i < n && Truthy(rs[i]) ==> i in TruthyIndices(rs, n)
    decreases n
  {
    if n > 0 {
      TruthyIndicesComplete(rs, n - 1);
      var front := TruthyIndices(rs, n - 1);
      assert forall i :: i in front ==> i in TruthyIndices(rs, n);
    }
  }

  /** The filter keeps exactly the values at the truthy positions, in
      order: element `k` of the result is the value at position `idx[k]`. */
  lemma {:induction false} KeepTruthyAtIndices(rs: seq<Option<string>>, n: nat)
    requires n <= |rs|
    ensures var r, idx := KeepTruthy(rs[..n]), TruthyIndices(rs, n);
      |r| == |idx| && forall k :: 0 <= k < |r| ==> rs[idx[k]] == Some(r[k])
    decreases n
  {
    if n > 0 {
      assert rs[..n][..n - 1] == rs[..n - 1];
      assert rs[..n][n - 1] == rs[n - 1];
      KeepTruthyAtIndices(rs, n - 1);
    }
  }

  /** With every response truthy, the filter keeps all of them, in place. */
  lemma {:induction false} KeepTruthyAll(rs: seq<Option<string>>)
    requires forall i :: 0 <= i < |rs| ==> Truthy(rs[i])
    ensures var r := KeepTruthy(rs);
      |r| == |rs| && forall i :: 0 <= i < |rs| ==> rs[i] == Some(r[i])
    decreases |rs|
  {
    if |rs| > 0 {
      KeepTruthyAll(rs[..|rs| - 1]);
    }
  }

  /** With no response truthy, the filter keeps nothing. */
  lemma {:induction false} KeepTruthyNone(rs: seq<Option<string>>)
    requires forall i :: 0 <= i < |rs| ==> !Truthy(rs[i])
    ensures KeepTruthy(rs) == []
    decreases |rs|
  {
    if |rs| > 0 {
      KeepTruthyNone(rs[..|rs| - 1]);
    }
  }

  /** The filter distributes over concatenation. */
  lemma {:induction false} KeepTruthyAppend(a: seq<Option<string>>, b: seq<Option<string>>)
    ensures KeepTruthy(a + b) == KeepTruthy(a) + KeepTruthy(b)
    decreases |b|
  {
    if |b| == 0 {
      assert a + b == a;
    } else {
      var n := |b| - 1;
      assert (a + b)[..|a + b| - 1] == a + b[..n];
      assert (a + b)[|a + b| - 1] == b[n];
      KeepTruthyAppend(a, b[..n]);
    }
  }

  /** Candidate `k` is the response to prompt `idx[k]`, where `idx` lists,
      ascending, exactly the prompts whose call succeeded with non-empty
      text: candidates keep prompt order and no prompt leaves a placeholder. */
  lemma GenerateInPromptOrder(prompts: seq<string>, diff: string, oracle: Oracle)
    ensures var r, idx := Generate(prompts, diff, oracle), TruthyIndices(Responses(prompts, diff, oracle), |prompts|);
      && |r| == |idx|
      && (forall k :: 0 <= k < |r| ==> idx[k] < |prompts| && ResponseFor(oracle, diff, prompts[idx[k]]) == Some(r[k]))
      && Ascending(idx)
      && (forall i :: 0 <= i < |prompts| && Truthy(ResponseFor(oracle, diff, prompts[i])) ==> i in idx)
  {
    var rs := Responses(prompts, diff, oracle);
    assert rs[..|prompts|] == rs;
    KeepTruthyAtIndices(rs, |prompts|);
    TruthyIndicesOrdered(rs, |prompts|);
    TruthyIndicesComplete(rs, |prompts|);
  }

  /** When every call succeeds with non-empty text there is one candidate
      per prompt, each the response to the prompt at the same position. */
  lemma GenerateAllSucceed(prompts: seq<string>, diff: string, oracle: Oracle)
    requires forall i :: 0 <= i < |prompts| ==> Truthy(ResponseFor(oracle, diff, prompts[i]))
    ensures var r := Generate(prompts, diff, oracle);
      |r| == |prompts| && forall i :: 0 <= i < |prompts| ==> ResponseFor(oracle, diff, prompts[i]) == Some(r[i])
  {
    KeepTruthyAll(Responses(prompts, diff, oracle));
  }

  /** When no call succeeds with non-empty text there is no candidate. */
  lemma GenerateAllFail(prompts: seq<string>, diff: string, oracle: Oracle)
    requires forall i :: 0 <= i < |prompts| ==> !Truthy(ResponseFor(oracle, diff, prompts[i]))
    ensures Generate(prompts, diff, oracle) == []
  {
    KeepTruthyNone(Responses(prompts, diff, oracle));
  }

  /** A prompt whose call fails or answers blank contributes nothing and
      does not shift the candidates of the prompts around it. */
  lemma GenerateSkipsFailure(a: seq<string>, p: string, b: seq<string>, diff: string, oracle: Oracle)
    requires !Truthy(ResponseFor(oracle, diff, p))
    ensures Generate(a + [p] + b, diff, oracle) == Generate(a, diff, oracle) + Generate(b, diff, oracle)
  {
    var ra, rb := Responses(a, diff, oracle), Responses(b, diff, oracle);
    var rp := ResponseFor(oracle, diff, p);
    assert Responses(a + [p] + b, diff, oracle) == ra + [rp] + rb;
    KeepTruthyAppend(ra + [rp], rb);
    KeepTruthyAppend(ra, [rp]);
    assert KeepTruthy([rp]) == [] by {
      assert [rp][..0] == [];
    }
  }

  /** One more response: the filter output grows by its value exactly when
      it is truthy. */
  lemma KeepTruthyExtend(rs: seq<Option<string>>, i: nat)
    requires i < |rs|
    ensures KeepTruthy(rs[..i + 1]) == KeepTruthy(rs[..i]) + (if Truthy(rs[i]) then [rs[i].value] else [])
  {
    assert rs[..i + 1][..i] == rs[..i];
  }

  /** The loop of `generate_commit_message`, also recording the request text
      sent for each prompt: one request per prompt, in prompt order, each the
      prompt followed by a blank line and the diff. */
  method GenerateCommitMessage(prompts: seq<string>, diff: string, oracle: Oracle)
    returns (results: seq<string>, requests: seq<string>)
    ensures results == Generate(prompts, diff, oracle)
    ensures requests == RequestsFor(prompts, diff)
  {
    ghost var rs := Responses(prompts, diff, oracle);
    results, requests := [], [];
    for i := 0 to |prompts|
      invariant results == KeepTruthy(rs[..i])
      invariant requests == RequestsFor(prompts[..i], diff)
    {
      KeepTruthyExtend(rs, i);
      var promptText := RequestText(prompts[i], diff);
      assert prompts[..i + 1][..i] == prompts[..i];
      requests := requests + [promptText];
      var response := Respond(oracle, promptText);
      assert response == rs[i];
      if Truthy(response) {
        results := results + [response.value];
      }
    }
    assert rs[..|prompts|] == rs && prompts[..|prompts|] == prompts;
  }
}

=== FILE: selection.dfy ===
/** The choose-and-commit loop of `select_best_message`
    (src/combiz.py:87-110). Reading the line and running `git commit` are
    left to the caller: one step consumes one parsed answer and emits the
    event it causes.
 */
module Selection {
  import opened ChoiceInput

  /** Why the script stopped. `show_error(..., _exit=1)` ends the process. */
  datatype Exit = NoStagedChanges | NoResponses | Cancelled

  /** Where the script is: in the selection loop over its candidates, or gone. */
  datatype Phase = AwaitingChoice(results: seq<string>) | Exited(reason: Exit)

  /** What one answer causes: a `git commit -m <argument>` call, the
      cancellation, or one of the two complaints after which the loop asks
      again. */
  datatype Event = Commit(argument: string) | Cancel | InvalidChoice | InvalidInput

  datatype Transition = Transition(event: Event, next: Phase)

  /** The message argument handed to `git commit -m`: the candidate between
      two literal double quotes, which become part of the commit message
      because no shell removes them. */
  function Quoted(message: string): (q: string)
    ensures |q| == |message| + 2 && q[0] == '"' && q[|q| - 1] == '"'
    ensures q[1..|q| - 1] == message
  {
    "\"" + message + "\""
  }

  /** Entering `select_best_message`: with no candidates the script stops
      before any prompt; otherwise it waits for an answer over the same list. */
  function Start(results: seq<string>): (p: Phase)
    ensures p.Exited? <==> results == []
    ensures p.Exited? ==> p.reason == NoResponses
    ensures p.AwaitingChoice? ==> p.results == results
  {
    if results == [] then Exited(NoResponses) else AwaitingChoice(results)
  }

  /** Whether `git commit -m` can be started with this message. Process
      arguments are C strings: `subprocess.run` rejects an argument holding
      U+0000 with `ValueError` before `git` runs, and the loop catches that
      `ValueError` as invalid input. */
  predicate Committable(message: string) {
    '\0' !in message
  }

  /** One pass of the `while True` loop. `0` cancels and ends the script;
      `n` in `1..|results|` commits candidate `n`, quoted, and the loop keeps
      waiting; any other number or a non-number is reported and the loop
      keeps waiting. */
  function Step(results: seq<string>, choice: Choice): (t: Transition)
    ensures t.event == Cancel <==> choice == Number(0)
    ensures t.event.Commit? <==>
      choice.Number? && 1 <= choice.n <= |results| && Committable(results[choice.n - 1])
    ensures t.event.Commit? ==> t.event.argument == Quoted(results[choice.n - 1])
    ensures t.event == InvalidInput <==>
      choice == NotANumber || (choice.Number? && 1 <= choice.n <= |results| && !Committable(results[choice.n - 1]))
    ensures t.event == InvalidChoice <==> choice.Number? && choice.n != 0 && !(1 <= choice.n <= |results|)
    ensures t.next == (if t.event == Cancel then Exited(Cancelled) else AwaitingChoice(results))
  {
    match choice
    case NotANumber => Transition(InvalidInput, AwaitingChoice(results))
    case Number(n) =>
      if n == 0 then Transition(Cancel, Exited(Cancelled))
      else if 1 <= n <= |results| then
        if Committable(results[n - 1]) then Transition(Commit(Quoted(results[n - 1])), AwaitingChoice(results))
        else Transition(InvalidInput, AwaitingChoice(results))
      else Transition(InvalidChoice, AwaitingChoice(results))
  }

  /** The events a run produced and where it ended. */
  datatype Trace = Trace(events: seq<Event>, final: Phase)

  /** The loop fed a finite sequence of answers, stopping when the script exits. */
  function Run(phase: Phase, choices: seq<Choice>): (tr: Trace)
    ensures |tr.events| <= |choices|
    ensures phase.Exited? ==> tr == Trace([], phase)
    ensures phase.AwaitingChoice? ==> tr.final == phase || tr.final == Exited(Cancelled)
    decreases |choices|
  {
    if phase.Exited? || |choices| == 0 then Trace([], phase)
    else
      var t := Step(phase.results, choices[0]);
      var rest := Run(t.next, choices[1..]);
      Trace([t.event] + rest.events, rest.final)
  }

  /** `Cancel` ends the loop, so it can only be the last event of a run. */
  lemma {:induction false} RunCancelsLast(phase: Phase, choices: seq<Choice>)
    ensures forall k :: 0 <= k < |Run(phase, choices).events| - 1 ==> Run(phase, choices).events[k] != Cancel
    decreases |choices|
  {
    if !phase.Exited? && |choices| > 0 {
      var t := Step(phase.results, choices[0]);
      var rest := Run(t.next, choices[1..]);
      RunCancelsLast(t.next, choices[1..]);
      var tr := Run(phase, choices);
      assert tr.events == [t.event] + rest.events;
      if t.event == Cancel {
        assert rest == Trace([], t.next);
      } else {
        forall k | 0 <= k < |tr.events| - 1 ensures tr.events[k] != Cancel {
          if k > 0 {
            assert tr.events[k] == rest.events[k - 1];
          }
        }
      }
    }
  }

  /** No `0` among the answers: every answer gets its own event, in order,
      and the loop is still waiting at the end, even after commits. */
  lemma {:induction false} RunWithoutCancel(results: seq<string>, choices: seq<Choice>)
    requires forall k :: 0 <= k < |choices| ==> choices[k] != Number(0)
    ensures var tr := Run(AwaitingChoice(results), choices);
      && |tr.events| == |choices|
      && (forall k :: 0 <= k < |choices| ==> tr.events[k] == Step(results, choices[k]).event)
      && tr.final == AwaitingChoice(results)
    decreases |choices|
  {
    if |choices| > 0 {
      RunWithoutCancel(results, choices[1..]);
      var tr := Run(AwaitingChoice(results), choices);
      var rest := Run(AwaitingChoice(results), choices[1..]);
      assert tr.events == [Step(results, choices[0]).event] + rest.events;
      forall k | 1 <= k < |choices| ensures tr.events[k] == Step(results, choices[k]).event {
        assert tr.events[k] == rest.events[k - 1];
        assert choices[1..][k - 1] == choices[k];
      }
    }
  }

  /** The first `0`, at position `i`, ends the run there: the answers before
      it have their own events, then comes `Cancel`, and nothing after it is
      read. */
  lemma {:induction false} RunUntilCancel(results: seq<string>, choices: seq<Choice>, i: nat)
    requires i < |choices| && choices[i] == Number(0)
    requires forall k :: 0 <= k < i ==> choices[k] != Number(0)
    ensures var tr := Run(AwaitingChoice(results), choices);
      && |tr.events| == i + 1
      && (forall k :: 0 <= k < i ==> tr.events[k] == Step(results, choices[k]).event)
      && tr.events[i] == Cancel
      && tr.final == Exited(Cancelled)
    decreases i
  {
    var tr := Run(AwaitingChoice(results), choices);
    if i > 0 {
      RunUntilCancel(results, choices[1..], i - 1);
      var rest := Run(AwaitingChoice(results), choices[1..]);
      assert tr.events == [Step(results, choices[0]).event] + rest.events;
      forall k | 1 <= k < i ensures tr.events[k] == Step(results, choices[k]).event {
        assert tr.events[k] == rest.events[k - 1];
        assert choices[1..][k - 1] == choices[k];
      }
    }
  }

  /** Every commit of a run passes a quoted candidate, the one the answer
      at the same position selected, and that candidate holds no U+0000. */
  lemma RunCommitsSelected(results: seq<string>, choices: seq<Choice>)
    ensures var tr := Run(AwaitingChoice(results), choices);
      forall k :: 0 <= k < |tr.events| && tr.events[k].Commit? ==>
        && choices[k].Number? && 1 <= choices[k].n <= |results|
        && Committable(results[choices[k].n - 1])
        && tr.events[k].argument == Quoted(results[choices[k].n - 1])
  {
    RunEventsAreSteps(results, choices);
  }

  /** With an empty candidate list no answer is read and nothing is committed. */
  lemma EmptyCandidatesNeverCommit(choices: seq<Choice>)
    ensures Run(Start([]), choices) == Trace([], Exited(NoResponses))
  {
  }

  /** The loop does not end after a commit: answering `1` twice commits
      the first candidate twice, and the loop then waits again. */
  lemma CommitKeepsWaiting(results: seq<string>)
    requires results != [] && Committable(results[0])
    ensures var tr := Run(AwaitingChoice(results), [Number(1), Number(1)]);
      tr.events == [Commit(Quoted(results[0])), Commit(Quoted(results[0]))]
      && tr.final == AwaitingChoice(results)
  {
    RunWithoutCancel(results, [Number(1), Number(1)]);
  }

  /** A candidate holding U+0000 is never committed: choosing it is
      reported as invalid input, every time, and the loop keeps waiting. */
  lemma NulCandidateNeverCommits(results: seq<string>, n: nat, choices: seq<Choice>)
    requires 1 <= n <= |results| && !Committable(results[n - 1])
    ensures var tr := Run(AwaitingChoice(results), choices);
      forall k :: 0 <= k < |tr.events| && choices[k] == Number(n) ==> tr.events[k] == InvalidInput
  {
    RunEventsAreSteps(results, choices);
  }

  /** Each event of a run is the event of its own answer's step. */
  lemma {:induction false} RunEventsAreSteps(results: seq<string>, choices: seq<Choice>)
    ensures var tr := Run(AwaitingChoice(results), choices);
      forall k :: 0 <= k < |tr.events| ==> tr.events[k] == Step(results, choices[k]).event
    decreases |choices|
  {
    if |choices| > 0 {
      var t := Step(results, choices[0]);
      if t.next.AwaitingChoice? {
        RunEventsAreSteps(results, choices[1..]);
        var tr := Run(AwaitingChoice(results), choices);
        var rest := Run(t.next, choices[1..]);
        assert tr.events == [t.event] + rest.events;
        forall k | 1 <= k < |tr.events| ensures tr.events[k] == rest.events[k - 1] && choices[k] == choices[1..][k - 1] {
        }
      }
    }
  }
}

=== FILE: whitespace.dfy ===
/** Removal of whitespace from both ends of a string, for a given class of
    whitespace characters. With `IsSpace` it is Python's `str.strip()` with
    no arguments, which `get_git_diff` applies to the staged diff and
    `get_ollama_response` to the text of every completion. `int()` trims its
    argument with a narrower class (see `ChoiceInput.IsIntSpace`).
 */
module Whitespace {

  /** The characters for which Python's `str.isspace()` holds: the ASCII
      controls TAB..CR, the four information separators 0x1C..0x1F, SPACE,
      NEL, NO-BREAK SPACE, and the Unicode space separators and line/paragraph
      separators. */
  predicate IsSpace(c: char) {
    var k := c as int;
    (0x09 <= k <= 0x0D) || (0x1C <= k <= 0x20) || k == 0x85 || k == 0xA0
    || k == 0x1680 || (0x2000 <= k <= 0x200A) || k == 0x2028 || k == 0x2029
    || k == 0x202F || k == 0x205F || k == 0x3000
  }

  /** Every character of `s` at a position in `[lo, hi)` is in the class `ws`. */
  predicate SpaceBetween(ws: char -> bool, s: string, lo: int, hi: int) {
    forall k :: lo <= k < hi && 0 <= k < |s| ==> ws(s[k])
  }

  predicate AllSpace(ws: char -> bool, s: string) {
    SpaceBetween(ws, s, 0, |s|)
  }

  /** Neither end of `s` is in the class `ws`. */
  predicate Trimmed(ws: char -> bool, s: string) {
    |s| == 0 || (!ws(s[0]) && !ws(s[|s| - 1]))
  }

  /** `s[i..j]` is what trimming `ws` keeps of `s`: no `ws` character at
      either end, nothing but `ws` characters before `i` and from `j` on. */
  predicate TrimsTo(ws: char -> bool, s: string, i: int, j: int) {
    0 <= i <= j <= |s| && SpaceBetween(ws, s, 0, i) && SpaceBetween(ws, s, j, |s|) && Trimmed(ws, s[i..j])
  }

  /** The forward scan: the first position at or after `i` that does not
      hold a `ws` character, or the end of `s`. */
  function SkipSpace(ws: char -> bool, s: string, i: nat): (r: nat)
    requires i <= |s|
    ensures i <= r <= |s|
    ensures SpaceBetween(ws, s, i, r)
    ensures r == |s| || !ws(s[r])
    decreases |s| - i
  {
    if i < |s| && ws(s[i]) then SkipSpace(ws, s, i + 1) else i
  }

  /** The backward scan: the smallest position `r` with `lo <= r <= j` such
      that `s[r..j]` holds only `ws` characters. */
  function SkipSpaceBack(ws: char -> bool, s: string, lo: nat, j: nat): (r: nat)
    requires lo <= j <= |s|
    ensures lo <= r <= j
    ensures SpaceBetween(ws, s, r, j)
    ensures r == lo || !ws(s[r - 1])
    decreases j - lo
  {
    if lo < j && ws(s[j - 1]) then SkipSpaceBack(ws, s, lo, j - 1) else j
  }

  /** Trimming `ws`: a slice of `s` with no `ws` character at either end,
      surrounded in `s` by nothing but `ws` characters. `Trim(IsSpace, s)`
      is `s.strip()`. */
  function Trim(ws: char -> bool, s: string): (r: string)
    ensures Trimmed(ws, r)
    ensures |r| <= |s|
    ensures exists i, j :: TrimsTo(ws, s, i, j) && r == s[i..j]
  {
    var i := SkipSpace(ws, s, 0);
    var j := SkipSpaceBack(ws, s, i, |s|);
    assert TrimsTo(ws, s, i, j);
    s[i..j]
  }

  /** The forward scan stops exactly at the first position outside the class. */
  lemma {:induction false} SkipSpaceAt(ws: char -> bool, s: string, i: nat, r: nat)
    requires i <= r <= |s|
    requires SpaceBetween(ws, s, i, r)
    requires r == |s| || !ws(s[r])
    ensures SkipSpace(ws, s, i) == r
    decreases r - i
  {
    if i < r {
      SkipSpaceAt(ws, s, i + 1, r);
    }
  }

  /** The backward scan stops exactly after the last position outside the class. */
  lemma {:induction false} SkipSpaceBackAt(ws: char -> bool, s: string, lo: nat, j: nat, r: nat)
    requires lo <= r <= j <= |s|
    requires SpaceBetween(ws, s, r, j)
    requires r == lo || !ws(s[r - 1])
    ensures SkipSpaceBack(ws, s, lo, j) == r
    decreases j - r
  {
    if r < j {
      SkipSpaceBackAt(ws, s, lo, j - 1, r);
    }
  }

  /** The converse of `Trim`'s contract: any slice with no `ws` character at
      either end that is surrounded by `ws` characters only is the result of
      `Trim`. Together they characterise the trimming completely. */
  lemma TrimCharacterized(ws: char -> bool, s: string, i: nat, j: nat)
    requires TrimsTo(ws, s, i, j)
    ensures Trim(ws, s) == s[i..j]
  {
    if i < j {
      assert s[i..j][0] == s[i] && s[i..j][j - i - 1] == s[j - 1];
      SkipSpaceAt(ws, s, 0, i);
      SkipSpaceBackAt(ws, s, i, |s|, j);
    } else {
      assert SpaceBetween(ws, s, 0, |s|);
      SkipSpaceAt(ws, s, 0, |s|);
      SkipSpaceBackAt(ws, s, |s|, |s|, |s|);
    }
  }

  /** Trimming twice is trimming once. */
  lemma TrimIdempotent(ws: char -> bool, s: string)
    ensures Trim(ws, Trim(ws, s)) == Trim(ws, s)
  {
    var r := Trim(ws, s);
    assert r[0..|r|] == r;
    TrimCharacterized(ws, r, 0, |r|);
  }

  /** A string is left unchanged by `Trim` exactly when neither end is in the class. */
  lemma TrimmedIsFixedPoint(ws: char -> bool, s: string)
    ensures Trim(ws, s) == s <==> Trimmed(ws, s)
  {
    if Trimmed(ws, s) {
      assert s[0..|s|] == s;
      TrimCharacterized(ws, s, 0, |s|);
    }
  }

  /** Python's truthiness of a trimmed text: it is empty exactly when the
      original text was all whitespace. */
  lemma TrimEmptyIffAllSpace(ws: char -> bool, s: string)
    ensures Trim(ws, s) == [] <==> AllSpace(ws, s)
  {
    if Trim(ws, s) == [] {
      var i, j := TrimBounds(ws, s);
      assert i == j;
    }
    if AllSpace(ws, s) {
      TrimCharacterized(ws, s, |s|, |s|);
    }
  }

  /** The bounds within `s` of the slice that `Trim` keeps. */
  lemma TrimBounds(ws: char -> bool, s: string) returns (i: nat, j: nat)
    ensures TrimsTo(ws, s, i, j) && Trim(ws, s) == s[i..j]
  {
    var r := Trim(ws, s);
    i, j :| TrimsTo(ws, s, i, j) && r == s[i..j];
  }

  /** Trimming keeps a slice, so whatever class every character of `s`
      belongs to, every character of the trimmed text belongs to it too. */
  lemma TrimKeepsClass(ws: char -> bool, other: char -> bool, s: string)
    requires AllSpace(other, s)
    ensures AllSpace(other, Trim(ws, s))
  {
    var i, j := TrimBounds(ws, s);
    forall k | 0 <= k < j - i ensures other(s[i..j][k]) {
      assert s[i..j][k] == s[i + k];
    }
  }

  /** Whitespace around a middle part does not change the trimmed text:
      `Trim(ws, w)` is `Trim(ws, w[p..q])` whenever the rest of `w` is in
      the class. */
  lemma TrimIgnoresPadding(ws: char -> bool, w: string, p: nat, q: nat)
    requires p <= q <= |w|
    requires SpaceBetween(ws, w, 0, p) && SpaceBetween(ws, w, q, |w|)
    ensures Trim(ws, w[p..q]) == Trim(ws, w)
  {
    var i, j := TrimBounds(ws, w[p..q]);
    PaddedTrim(ws, w, p, q, i, j);
  }

  /** What `Trim` keeps of a middle part is also what it keeps of the whole. */
  lemma PaddedTrim(ws: char -> bool, w: string, p: nat, q: nat, i: nat, j: nat)
    requires p <= q <= |w|
    requires SpaceBetween(ws, w, 0, p) && SpaceBetween(ws, w, q, |w|)
    requires TrimsTo(ws, w[p..q], i, j)
    ensures Trim(ws, w) == w[p..q][i..j]
  {
    PaddedSlice(ws, w, p, q, i, j);
    TrimCharacterized(ws, w, p + i, p + j);
  }

  /** Positions of a slice `w[p..q]` translated back into `w`. */
  lemma PaddedSlice(ws: char -> bool, w: string, p: nat, q: nat, i: nat, j: nat)
    requires p <= q <= |w|
    requires SpaceBetween(ws, w, 0, p) && SpaceBetween(ws, w, q, |w|)
    requires TrimsTo(ws, w[p..q], i, j)
    ensures TrimsTo(ws, w, p + i, p + j) && w[p..q][i..j] == w[p + i..p + j]
  {
    var m := w[p..q];
    forall k | 0 <= k < j - i ensures m[i..j][k] == w[p + i..p + j][k] {
      assert m[i..j][k] == m[i + k] == w[p + i + k];
    }
    forall k | 0 <= k < p + i ensures ws(w[k]) {
      if k >= p { assert w[k] == m[k - p]; }
    }
    forall k | p + j <= k < |w| ensures ws(w[k]) {
      if k < q { assert w[k] == m[k - p]; }
    }
  }
}
